=== FILE: README.md ===
# AppInfoScanner acquisition and probing core, modelled in Dafny

This project models the three pieces of sequential logic at the core of
AppInfoScanner's acquisition and probing code:

- **Probe classification and report rows** (`libs/core/net.py`). A probe turns the
  transport's answer for one candidate address into a tagged outcome:
  `Error`, `Timeout` or `Answered` with the status, `Server`/`Cookie` headers,
  CDN hint, socket addresses and page title. A worker drains its task queue in
  FIFO order. For every outcome other than `Error` it advances the shared row
  counter and writes one row of the worksheet. The worksheet is modelled as a
  map from (row, column) to cell (`probe.dfy`, `worker.dfy`).
- **File discovery** (`libs/task/web_task.py`). This covers the suffix allow-list and
  its defaults, the last-dot suffix, and the single-file check with its error
  message. It also covers the recursive walk over a directory tree and the
  lockstep append of path and identifier. An identifier is the upper-case hex
  text of a digest of the file's bytes (`discovery.dfy`).
- **Download** (`libs/core/download.py`). This covers GET/POST selection, the
  binary/text branch and the `content-length` header. It also covers the chunk
  loop with its byte count and de-duplicated progress updates, and the point
  where the completion flag is set (`download.dfy`).

`wrappers.dfy` holds `Option` and `Result`. `bytes.dfy` holds the `Byte` type.

The network, the file system, the title regular expression and the MD5 digest
are not modelled. Each is a parameter of the model:

- The transport's final answer is a `Reply` value: `Probe.Reply` for a probe, `Download.Reply` for the download.
- The directory tree is an `Entry` value. Its children are in listing order.
- The title search is a function `findTitles` that returns all matches.
- The digest is a function `digest` from bytes to bytes.

Three behaviours of the code worth noting:

- `raise_for_status` fails for statuses 400 to 599. Other statuses, such as
  1xx or 3xx, go on to be saved. The model follows this (`IsHttpError`).
- The download request is made without `stream=True`. The HTTP library
  therefore reads the whole body before the chunk loop starts, so the binary
  branch does not really stream. The model takes the chunk sequence as given
  and makes no claim about memory use.
- A POST sends the configured data as query parameters (`params`,
  libs/core/download.py:54-55), while a GET sends it as the request body
  (`data`, libs/core/download.py:58-59). That is the reverse of the usual
  convention. The model records only which method is chosen, not how the
  data travels.

A single-file path's suffix is taken from the whole path string, and the path
does not need to contain a "." at all. For example, a path `xml` is accepted
with the default list. The directory walk, by contrast, requires a "." in the
file name. The model keeps both rules as written (`Start`, `Wanted`).

## Model

| member | source | states |
|---|---|---|
| Probe.Cdn | libs/core/net.py:66-79 | the CDN hint starts with the `X-Via` value and ends with the `Via` value, each only when present; its length is the sum of the two; it is empty when neither header is present |
| Probe.Classify | libs/core/net.py:56-97 | an invalid URL gives `Error`; a connection error or read timeout gives `Timeout`; a response gives `Answered`, with `server` and `cookie` taken from their headers or "", the CDN hint, `desIp`/`souIp` taken from the peer/local socket addresses or "", and the first title match or "" |
| Worker.WriteRow | libs/core/net.py:40-54 | an `Error` changes nothing; otherwise the counter rises by one and the new row holds index = counter − 1, address, domain, plus status, destination IP, server, title and CDN for a success; no other cell changes, so a timeout row's columns 4-8 and any cookie or source IP are never written |
| Worker.ProbeRow | libs/core/net.py:38-52 | end to end for one task: an invalid address leaves the sheet as it was; any other reply advances the counter and writes the next row with index counter − 1, the probed address and the domain; no cell outside that row's columns changes; a failed connection or read leaves columns 4-8 of that row untouched; a response fills them with its status, the peer address or "", the `Server` header or "", the first title or "", and the CDN hint |
| Worker.RunAppend | libs/core/net.py:31-34 | draining a queue is draining its front part and then the rest, so tasks are processed in FIFO order |
| Worker.RunSkipsErrors | libs/core/net.py:38-40 | a dropped `Error` task has no effect: the run equals the run over the accepted tasks alone |
| Worker.RunFrame | libs/core/net.py:41-54 | over tasks without errors, the counter rises by their number, and only the new rows' own columns change |
| Worker.RunRows | libs/core/net.py:42-52 | over tasks without errors, the i-th task's row is at initial row + 1 + i |
| Worker.RunLayout | libs/core/net.py:31-54 | over a whole run with n non-`Error` outcomes, exactly rows initial+1 .. initial+n are written, with no gap or duplicate; the k-th holds the k-th accepted task with index initial+k−1; every other cell keeps its value |
| Worker.Drain | libs/core/net.py:30-54 | the loop consumes every task once, front first, and leaves the sheet that the FIFO run describes |
| Discovery.Suffix | libs/task/web_task.py:40 | the suffix is a dot-free tail of the string, preceded by a "." unless it is the whole string |
| Discovery.SuffixUnique | libs/task/web_task.py:40 | the three facts above determine the suffix: any string that has them is the suffix |
| Discovery.SuffixOfDotted | libs/task/web_task.py:65 | the suffix of "stem.ext" is "ext" when "ext" has no dot |
| Discovery.AllowList | libs/task/web_task.py:35 | the allow-list is the configured list, or ["html", "js", "xml"] when the setting is absent or empty |
| Discovery.UnsupportedMessage | libs/task/web_task.py:42-45 | the rejection message starts with the fixed sentence; when no suffix contains a comma, splitting the rest of the message at its commas gives back exactly the allowed suffixes, in order |
| Discovery.SplitJoin | libs/task/web_task.py:44 | joining a non-empty list of comma-free items with "," and splitting the result at its commas gives the list back |
| Discovery.JoinPath | libs/task/web_task.py:60 | an absolute name replaces the base; otherwise the path starts with the base and ends with the name, with exactly one "/" between them when the base is non-empty and does not already end with "/", and none otherwise |
| Discovery.Wanted | libs/task/web_task.py:64-66 | a file name is kept exactly when it has a "." after which the rest of the name is dot-free and in the allow-list |
| Discovery.Walk | libs/task/web_task.py:58-67 | every file the walk yields has a wanted name: it contains a "." and its suffix is allowed |
| Discovery.WalkExactly | libs/task/web_task.py:58-67 | a file is yielded exactly when it lies in the tree at any depth and its name is wanted; directories are never yielded |
| Discovery.WalkEntryExactly | libs/task/web_task.py:59-67 | one listing entry contributes exactly the wanted files below it |
| Discovery.HexUpper | libs/task/web_task.py:76 | the identifier text has two upper-case hexadecimal digits per digest byte |
| Discovery.HexRoundTrip | libs/task/web_task.py:76 | the hex text decodes back to the digest, so it loses nothing |
| Discovery.Identifier | libs/task/web_task.py:72-76 | a file's identifier depends only on its bytes and decodes back to their digest |
| Discovery.AddFile | libs/task/web_task.py:69-77 | adding a file appends its path to the queue and its identifier to the list; neither list loses its earlier entries |
| Discovery.AddAll | libs/task/web_task.py:67-77 | the queue and the identifiers grow in lockstep: position k of each describes the k-th added file |
| Discovery.Start | libs/task/web_task.py:29-56 | within the model's tree (every file readable), start fails exactly for a lone file whose path suffix is not allowed, and the error carries the message listing the allowed suffixes; otherwise it returns comp_list = [], shell_flag = false, packagename = None, no permissions, and a queue and identifiers of equal length; a lone file is queued alone; a directory yields exactly the walk's files in order |
| Download.PostIffAnyCaseOfPost | libs/core/download.py:53-60 | POST is chosen exactly when the configured method is "post" in some mix of cases; anything else gives GET |
| Download.SelectMethod | libs/core/download.py:53-60 | POST is chosen exactly when the configured method upper-cases to "POST", GET otherwise |
| Download.KindOf | libs/core/download.py:64 | only the types "Android" and "iOS" take the binary branch; every other type takes the text branch |
| Download.ParseNat | libs/core/download.py:68 | a number is read exactly from non-empty all-digit text |
| Download.ParseLeadingZero | libs/core/download.py:68 | a leading zero does not change the length read from the header |
| Download.ParseShow | libs/core/download.py:68 | reading back a number's decimal text gives the number |
| Download.ContentLength | libs/core/download.py:65-70 | the length is absent when the header is missing, empty or not a number, and is the header's value otherwise |
| Download.NonEmpty | libs/core/download.py:76-78 | the written chunks are all non-empty and carry exactly the bytes of all the chunks |
| Download.Bar | libs/core/download.py:87 | the progress bar is percent / 2 marks (rounded down), all the same mark |
| Download.PercentStep | libs/core/download.py:80-81 | reading another chunk never lowers the percent; an empty chunk leaves it unchanged |
| Download.EmittedStep | libs/core/download.py:81-83 | one more chunk keeps this true: the printed percents are exactly the non-zero percents reached so far |
| Download.Stream | libs/core/download.py:72-90 | empty chunks are skipped. The file holds all bytes in order. Without a tracked length, nothing is counted or printed. With one, the count is the body length. The printed percents strictly increase and are never 0. They are exactly the non-zero percents reached after some chunk |
| Download.Request | libs/core/download.py:44-100 | the request uses the selected method. A transport error or an HTTP error status leaves the file unopened. The text branch saves the decoded text. The binary branch saves the concatenated non-empty chunks. Only the binary branch with a tracked length prints progress, and there the printed percents, each with its bar, are exactly the non-zero percents reached after some chunk, in strictly increasing order. The completion flag is set exactly when no failure occurred |

## Left out

- Concurrency: several workers, the `Queue.empty()`/`get(timeout=5)` race and the lock. The lock is created per worker (libs/core/net.py:26), so it gives no exclusion across workers. The model runs one worker sequentially and claims nothing about exclusion.
- Rate limiting with `time.sleep(2)`, and console printing. The processed addresses appear as `Drain`'s `visited` list, and progress lines appear as `Update` values.
- The HTTP library: sessions, the adapter's 3 retries, timeouts, and `stream=True` on the probe. Each is summarised by the transport's final answer, `Reply`.
- Exceptions other than `InvalidURL`, `ConnectionError` and `ReadTimeout` inside the probe, such as a missing URL scheme. These end the worker thread in the source. A `Probe.Reply` cannot express them.
- Probe.Classify: on an IPv6 connection `getpeername()` returns four values, so the two-name unpacking at libs/core/net.py:84 raises `ValueError`. Nothing at libs/core/net.py:94-97 catches it, so the worker thread ends and no row is written for that task or any later one of that worker. The model's `Socket` carries only the two addresses and always produces a row.
- Probe.Classify: header lookup is by exact name. The HTTP library's lookup ignores case. Header values are taken as already-decoded text.
- Probe.Classify: the `<title>(.+)</title>` regular expression is a parameter `findTitles`, not modelled.
- Discovery.Identifier: MD5 itself is a parameter `digest`. Only its hex encoding and upper-casing are modelled.
- Discovery.Walk: the order of `os.listdir` is whatever order the tree's children are in. The model makes no claim about operating-system order. Symbolic links and unreadable files are not modelled.
- Discovery.JoinPath: the model is POSIX `os.path.join`, with "/" as the only separator. On Windows, `os.path.join` inserts `\`, treats both `/` and `\` as separators, and restarts the path at a drive letter such as "C:", so the queued paths there differ from the model's.
- Discovery.Start: opening and reading a file is the `bytes` field of a `File` entry. `os.path.isdir` is whether the entry is a `Dir`.
- Download.ContentLength, Download.ParseNat: Python's `float()` also accepts signs, decimals, exponents, surrounding spaces, digit-separating underscores, `inf` and `nan` (for example "1e3", " 100", "+5", "1_000", "1.5"). The model reads only plain decimal digits and treats every other text as unparseable.
- Download.ContentLength: for a header of `nan`, `if length:` holds and `int(count / length * 100)` raises `ValueError` just after the first non-empty chunk is written (libs/core/download.py:78-81). The download fails and the completion flag stays unset. The model treats the header as unparseable and completes without progress.
- Download.ContentLength: for `inf`, every percent is 0, so nothing is printed and the download completes. The model gets the same result by treating the header as unparseable.
- Download.Stream: for a negative length (for example `-100`), the source prints negative percents that fall as bytes arrive. The "positive, strictly increasing" promise holds only for the non-negative lengths the model parses.
- Discovery.Start: a path that does not exist or cannot be read fails when `open` raises (libs/task/web_task.py:73), even when its suffix is allowed. The model's tree holds only readable entries.
- Download.Stream, Download.Request: the percent is `count * 100 / length` rounded down with integers. The source computes `int(count / length * 100)` in floating point, which can come out one lower through rounding.
- Download.SelectMethod, Download.PostIffAnyCaseOfPost: `str.upper()` is modelled for ASCII letters only. Python also upper-cases some non-ASCII letters into ASCII ones (for example "ſ" becomes "S"), and some ligatures into several letters (for example "ﬆ" becomes "ST"), which changes the length; configured values such as "poﬆ" therefore select POST in the code, while both members select GET for them.
- Download.Request: an exception while writing the text file is not modelled. In the binary branch, a fault during the chunk loop is the `interrupted` field of the reply.
- The global `config` and `cores` modules are replaced by explicit parameters and results: the configured method, the suffix list, the row counter in `Sheet`, and the completion flag in `Fetch`.

=== FILE: bytes.dfy ===
/** Raw bytes, as read from a file or a response body. */
module Bytes {

  /** One byte, as the integer 0 .. 255. */
  type Byte = x: int | 0 <= x < 256
}

=== FILE: discovery.dfy ===
/** File discovery of libs/task/web_task.py: choosing the suffix allow-list,
    checking a single file's suffix, walking a directory tree for files whose
    suffix is allowed, and recording each file's path and content identifier
    in lockstep. The file system is given as a tree; the digest is a
    parameter. */
module Discovery {
  import opened Wrappers
  import opened Bytes

  /** A directory entry: `children` is the listing in whatever order the
      operating system returns it. */
  datatype Entry = Dir(name: string, children: seq<Entry>) | File(name: string, bytes: seq<Byte>)

  /** A file the walk accepted: its joined path, its own name, its contents. */
  datatype Found = Found(path: string, name: string, bytes: seq<Byte>)

  /** What `start` hands back to its caller. */
  datatype StartResult = StartResult(
    compList: seq<string>,
    shellFlag: bool,
    fileQueue: seq<string>,
    packagename: Option<string>,
    fileIdentifier: seq<string>,
    permissions: seq<string>)

  // ---------------------------------------------------------------- suffixes

  /** The position of the last "." in `s`, if any. */
  function LastDot(s: string): (k: Option<nat>)
    ensures k.Some? ==> k.value < |s| && s[k.value] == '.' &&
                        forall j :: k.value < j < |s| ==> s[j] != '.'
    ensures k.None? ==> forall j :: 0 <= j < |s| ==> s[j] != '.'
  {
    if |s| == 0 then None
    else if s[|s| - 1] == '.' then Some(|s| - 1)
    else LastDot(s[..|s| - 1])
  }

  /** The text after the last "." of `s`, or all of `s` when it has no "."
      (the last element of `s.rsplit(".", 1)`). */
  function Suffix(s: string): (r: string)
    ensures |r| <= |s| && r == s[|s| - |r|..]
    ensures '.' !in r
    ensures |r| < |s| ==> s[|s| - |r| - 1] == '.'
  {
    match LastDot(s)
    case None => s
    case Some(k) => s[k + 1..]
  }

  /** The three facts `Suffix` promises determine it: any string that is a
      dot-free tail of `s`, preceded by a "." unless it is all of `s`, is the suffix. */
  lemma SuffixUnique(s: string, r: string)
    requires |r| <= |s| && r == s[|s| - |r|..]
    requires '.' !in r
    requires |r| < |s| ==> s[|s| - |r| - 1] == '.'
    ensures r == Suffix(s)
  {
  }

  /** Splitting "stem.ext" at its last dot gives back "ext" when "ext" has no dot. */
  lemma SuffixOfDotted(stem: string, ext: string)
    requires '.' !in ext
    ensures Suffix(stem + "." + ext) == ext
  {
    var s := stem + "." + ext;
    assert s[|s| - |ext|..] == ext;
    assert s[|s| - |ext| - 1] == '.';
    SuffixUnique(s, ext);
  }

  // ---------------------------------------------------------- configuration

  const DefaultSuffixes: seq<string> := ["html", "js", "xml"]

  /** The allow-list: the configured suffixes, or the defaults when the
      setting is absent or empty (libs/task/web_task.py:35). */
  function AllowList(configured: Option<seq<string>>): (allow: seq<string>)
    ensures configured.None? ==> allow == DefaultSuffixes
    ensures configured.Some? && |configured.value| == 0 ==> allow == DefaultSuffixes
    ensures configured.Some? && |configured.value| > 0 ==> allow == configured.value
    ensures |allow| > 0
  {
    match configured
    case Some(xs) => if |xs| > 0 then xs else DefaultSuffixes
    case None => DefaultSuffixes
  }

  /** `",".join(xs)`. */
  function JoinComma(xs: seq<string>): string
  {
    if |xs| == 0 then ""
    else if |xs| == 1 then xs[0]
    else xs[0] + "," + JoinComma(xs[1..])
  }

  /** `s.split(",")`: the pieces between commas, always at least one. */
  function SplitComma(s: string): (pieces: seq<string>)
    ensures |pieces| > 0
  {
    if |s| == 0 then [""]
    else
      var rest := SplitComma(s[1..]);
      if s[0] == ',' then [""] + rest else [[s[0]] + rest[0]] + rest[1..]
  }

  /** A comma-free piece followed by a comma splits off as one item. */
  lemma {:induction false} SplitCommaFront(a: string, b: string)
    requires ',' !in a
    ensures SplitComma(a + "," + b) == [a] + SplitComma(b)
    ensures SplitComma(a) == [a]
  {
    if |a| > 0 {
      SplitCommaFront(a[1..], b);
      assert (a + "," + b)[1..] == a[1..] + "," + b;
      assert [a[0]] + a[1..] == a;
    } else {
      assert a + "," + b == [','] + b;
    }
  }

  /** Joining a non-empty list of comma-free items with "," and splitting the
      text at its commas gives the list back: the message names exactly the
      allowed suffixes, in order. */
  lemma {:induction false} SplitJoin(xs: seq<string>)
    requires |xs| > 0
    requires forall i :: 0 <= i < |xs| ==> ',' !in xs[i]
    ensures SplitComma(JoinComma(xs)) == xs
    decreases |xs|
  {
    if |xs| == 1 {
      SplitCommaFront(xs[0], "");
    } else {
      SplitJoin(xs[1..]);
      SplitCommaFront(xs[0], JoinComma(xs[1..]));
      assert [xs[0]] + xs[1..] == xs;
    }
  }

  const UnsupportedPrefix: string :=
    "Retrieval of this file type is not supported. Select a file or directory with a suffix of "

  /** Every allow-list the message can be built from reads back from it. */
  lemma JoinedListReadsBack(allow: seq<string>)
    ensures |allow| > 0 && (forall i :: 0 <= i < |allow| ==> ',' !in allow[i]) ==>
              SplitComma(JoinComma(allow)) == allow
  {
    if |allow| > 0 && (forall i :: 0 <= i < |allow| ==> ',' !in allow[i]) {
      SplitJoin(allow);
    }
  }

  /** The message raised for a rejected single file: the fixed text followed
      by the allowed suffixes joined by ",". */
  function UnsupportedMessage(allow: seq<string>): (m: string)
    ensures UnsupportedPrefix <= m
    ensures |allow| > 0 && (forall i :: 0 <= i < |allow| ==> ',' !in allow[i]) ==>
              SplitComma(m[|UnsupportedPrefix|..]) == allow
  {
    JoinedListReadsBack(allow);
    assert (UnsupportedPrefix + JoinComma(allow))[|UnsupportedPrefix|..] == JoinComma(allow);
    UnsupportedPrefix + JoinComma(allow)
  }

  // ------------------------------------------------------------------ walk

  /** `os.path.join(base, name)` for one more component: an absolute name
      replaces the base; otherwise the name follows the base, with one "/"
      in between unless the base is empty or already ends with "/". */
  function JoinPath(base: string, name: string): (p: string)
    ensures |name| > 0 && name[0] == '/' ==> p == name
    ensures !(|name| > 0 && name[0] == '/') ==>
              && base <= p
              && |name| <= |p| && p[|p| - |name|..] == name
              && (|base| == 0 || base[|base| - 1] == '/' ==> |p| == |base| + |name|)
              && (|base| > 0 && base[|base| - 1] != '/' ==> |p| == |base| + 1 + |name| && p[|base|] == '/')
  {
    if |name| > 0 && name[0] == '/' then name
    else if |base| == 0 || base[|base| - 1] == '/' then base + name
    else base + "/" + name
  }

  /** A name has a "." and an allowed last-dot suffix exactly when some "."
      in it is followed by a dot-free, allowed remainder. */
  lemma DotThenAllowed(name: string, allow: seq<string>)
    ensures ('.' in name && Suffix(name) in allow) <==>
              exists k :: 0 <= k < |name| && name[k] == '.' && '.' !in name[k + 1..] && name[k + 1..] in allow
  {
    if '.' in name && Suffix(name) in allow {
      var k := |name| - |Suffix(name)| - 1;
      assert name[k + 1..] == Suffix(name);
    }
    forall k | 0 <= k < |name| && name[k] == '.' && '.' !in name[k + 1..]
      ensures name[k + 1..] == Suffix(name)
    {
      SuffixUnique(name, name[k + 1..]);
    }
  }

  /** A file name the walk keeps: it contains a "." and its suffix is allowed
      (libs/task/web_task.py:64-66). Equivalently, the name has a "." after
      which the rest of the name is dot-free and allowed. */
  predicate Wanted(name: string, allow: seq<string>)
    ensures Wanted(name, allow) <==>
              exists k :: 0 <= k < |name| && name[k] == '.' && '.' !in name[k + 1..] && name[k + 1..] in allow
  {
    DotThenAllowed(name, allow);
    '.' in name && Suffix(name) in allow
  }

  /** The recursive scan of libs/task/web_task.py:58-67: sub-directories are
      descended into, files are kept when `Wanted`, in listing order. */
  function Walk(base: string, cs: seq<Entry>, allow: seq<string>): (found: seq<Found>)
    ensures forall i :: 0 <= i < |found| ==> Wanted(found[i].name, allow)
    decreases cs
  {
    if |cs| == 0 then [] else WalkEntry(base, cs[0], allow) + Walk(base, cs[1..], allow)
  }

  /** The contribution of one listing entry to the walk. */
  function WalkEntry(base: string, e: Entry, allow: seq<string>): (found: seq<Found>)
    ensures forall i :: 0 <= i < |found| ==> Wanted(found[i].name, allow)
    decreases e
  {
    match e
    case File(n, b) => if Wanted(n, allow) then [Found(JoinPath(base, n), n, b)] else []
    case Dir(n, sub) => Walk(JoinPath(base, n), sub, allow)
  }

  /** `f` is a file somewhere below entry `e`, which sits in directory `base`. */
  ghost predicate InEntry(base: string, e: Entry, f: Found)
    decreases e
  {
    match e
    case File(n, b) => f == Found(JoinPath(base, n), n, b)
    case Dir(n, cs) => exists i :: 0 <= i < |cs| && InEntry(JoinPath(base, n), cs[i], f)
  }

  /** `f` is a file at any depth below the listing `cs` of directory `base`. */
  ghost predicate InTree(base: string, cs: seq<Entry>, f: Found) {
    exists i :: 0 <= i < |cs| && InEntry(base, cs[i], f)
  }

  /** The walk keeps a file, at any depth, exactly when it lies in the tree
      and its name is wanted; directories are never kept, since only file
      entries are `InEntry` matches. */
  lemma {:induction false} WalkExactly(base: string, cs: seq<Entry>, allow: seq<string>, f: Found)
    ensures f in Walk(base, cs, allow) <==> InTree(base, cs, f) && Wanted(f.name, allow)
    decreases cs
  {
    if |cs| > 0 {
      WalkEntryExactly(base, cs[0], allow, f);
      WalkExactly(base, cs[1..], allow, f);
      if InTree(base, cs, f) {
        var i :| 0 <= i < |cs| && InEntry(base, cs[i], f);
        if i > 0 {
          assert cs[1..][i - 1] == cs[i];
        }
      }
      if InTree(base, cs[1..], f) {
        var i :| 0 <= i < |cs[1..]| && InEntry(base, cs[1..][i], f);
        assert cs[i + 1] == cs[1..][i];
      }
    }
  }

  /** One entry's share of the walk is exactly its wanted files. */
  lemma {:induction false} WalkEntryExactly(base: string, e: Entry, allow: seq<string>, f: Found)
    ensures f in WalkEntry(base, e, allow) <==> InEntry(base, e, f) && Wanted(f.name, allow)
    decreases e
  {
    match e
    case File(n, b) =>
    case Dir(n, sub) =>
      WalkExactly(JoinPath(base, n), sub, allow, f);
  }

  // ------------------------------------------------------------ identifiers

  /** The upper-case hexadecimal digit for `v`. */
  function HexDigit(v: nat): (c: char)
    requires v < 16
    ensures IsHexDigit(c)
  {
    if v < 10 then ('0' as int + v) as char else ('A' as int + v - 10) as char
  }

  predicate IsHexDigit(c: char) {
    '0' <= c <= '9' || 'A' <= c <= 'F'
  }

  /** Upper-case hexadecimal text of a byte string, two digits per byte,
      high digit first (`hexdigest().upper()`). */
  function HexUpper(d: seq<Byte>): (h: string)
    ensures |h| == 2 * |d|
    ensures forall j :: 0 <= j < |h| ==> IsHexDigit(h[j])
  {
    if |d| == 0 then ""
    else [HexDigit(d[0] / 16), HexDigit(d[0] % 16)] + HexUpper(d[1..])
  }

  /** The value of an upper-case hexadecimal digit. */
  function DigitValue(c: char): (v: Option<nat>)
    ensures v.Some? ==> v.value < 16 && HexDigit(v.value) == c
    ensures v.Some? <==> IsHexDigit(c)
  {
    if '0' <= c <= '9' then Some(c as int - '0' as int)
    else if 'A' <= c <= 'F' then Some(c as int - 'A' as int + 10)
    else None
  }

  /** Reads upper-case hexadecimal text back into bytes. */
  function HexDecode(h: string): Option<seq<Byte>>
    decreases |h|
  {
    if |h| == 0 then Some([])
    else if |h| == 1 then None
    else match (DigitValue(h[0]), DigitValue(h[1]), HexDecode(h[2..]))
      case (Some(hi), Some(lo), Some(rest)) => Some([hi * 16 + lo] + rest)
      case _ => None
  }

  /** The identifier text loses nothing: it decodes to the digest it encodes. */
  lemma {:induction false} HexRoundTrip(d: seq<Byte>)
    ensures HexDecode(HexUpper(d)) == Some(d)
  {
    if |d| > 0 {
      var h := HexUpper(d);
      assert h[2..] == HexUpper(d[1..]);
      HexRoundTrip(d[1..]);
      assert DigitValue(HexDigit(d[0] / 16)) == Some(d[0] / 16);
      assert DigitValue(HexDigit(d[0] % 16)) == Some(d[0] % 16);
      assert [d[0]] + d[1..] == d;
    }
  }

  /** A file's identifier: the upper-case hex of the digest of its bytes,
      which depends on nothing else (libs/task/web_task.py:72-76). */
  function Identifier(bytes: seq<Byte>, digest: seq<Byte> -> seq<Byte>): (id: string)
    ensures |id| == 2 * |digest(bytes)|
    ensures HexDecode(id) == Some(digest(bytes))
  {
    HexRoundTrip(digest(bytes));
    HexUpper(digest(bytes))
  }

  // ---------------------------------------------------------- collection

  /** WebTask's two output lists: the paths queued for scanning and their identifiers. */
  datatype Collected = Collected(queue: seq<string>, ids: seq<string>)

  /** `__add_file`: one path joins the queue and its identifier joins the
      list, both at the end (libs/task/web_task.py:69-77). */
  function AddFile(st: Collected, path: string, bytes: seq<Byte>, digest: seq<Byte> -> seq<Byte>): (st': Collected)
    ensures |st'.queue| == |st.queue| + 1 && |st'.ids| == |st.ids| + 1
    ensures st'.queue[..|st.queue|] == st.queue && st'.ids[..|st.ids|] == st.ids
    ensures st'.queue[|st.queue|] == path
    ensures HexDecode(st'.ids[|st.ids|]) == Some(digest(bytes))
  {
    Collected(st.queue + [path], st.ids + [Identifier(bytes, digest)])
  }

  /** Adds every found file in order. The queue and the identifiers stay in
      lockstep: position k of each describes the same file. */
  function AddAll(st: Collected, fs: seq<Found>, digest: seq<Byte> -> seq<Byte>): (st': Collected)
    requires |st.queue| == |st.ids|
    ensures |st'.queue| == |st'.ids| == |st.queue| + |fs|
    ensures st'.queue[..|st.queue|] == st.queue && st'.ids[..|st.ids|] == st.ids
    ensures forall i :: 0 <= i < |fs| ==>
              st'.queue[|st.queue| + i] == fs[i].path &&
              st'.ids[|st.ids| + i] == Identifier(fs[i].bytes, digest)
    decreases |fs|
  {
    if |fs| == 0 then st
    else
      var st1 := AddFile(st, fs[0].path, fs[0].bytes, digest);
      var r := AddAll(st1, fs[1..], digest);
      assert forall i :: 1 <= i < |fs| ==> fs[1..][i - 1] == fs[i];
      r
  }

  /** `WebTask.start` (libs/task/web_task.py:29-56) for the entry found at
      `path`: a directory is walked; a lone file is accepted only when the
      suffix of the whole path is allowed, otherwise the call fails with the
      message listing the allowed suffixes. */
  function Start(path: string, root: Entry, configured: Option<seq<string>>,
                 digest: seq<Byte> -> seq<Byte>): (res: Result<StartResult, string>)
    ensures res.Failure? <==> root.File? && Suffix(path) !in AllowList(configured)
    ensures res.Failure? ==> res.error == UnsupportedMessage(AllowList(configured))
    ensures res.Success? ==>
              && res.value.compList == []
              && !res.value.shellFlag
              && res.value.packagename == None
              && res.value.permissions == []
              && |res.value.fileQueue| == |res.value.fileIdentifier|
    ensures res.Success? && root.File? ==>
              res.value.fileQueue == [path] &&
              res.value.fileIdentifier == [Identifier(root.bytes, digest)]
    ensures res.Success? && root.Dir? ==>
              var found := Walk(path, root.children, AllowList(configured));
              && |res.value.fileQueue| == |found|
              && forall i :: 0 <= i < |found| ==>
                   res.value.fileQueue[i] == found[i].path &&
                   res.value.fileIdentifier[i] == Identifier(found[i].bytes, digest)
  {
    var allow := AllowList(configured);
    var empty := Collected([], []);
    var collected :- match root
      case Dir(_, children) => Success(AddAll(empty, Walk(path, children, allow), digest))
      case File(_, bytes) =>
        if Suffix(path) !in allow then Failure(UnsupportedMessage(allow))
        else Success(AddFile(empty, path, bytes, digest));
    Success(StartResult([], false, collected.queue, None, collected.ids, []))
  }
}

=== FILE: download.dfy ===
/** The download worker of libs/core/download.py (`__request`): method
    selection, the binary/text branch, the content-length header, the
    chunk-and-progress loop and where the completion flag is set. The
    transport (session, retries, timeouts) is not modelled; its final answer
    is given as a `Reply`. */
module Download {
  import opened Wrappers
  import opened Bytes

  // ------------------------------------------------------------ the method

  datatype HttpMethod = Get | Post

  /** ASCII upper-casing of one character. */
  function AsciiUpper(c: char): char {
    if 'a' <= c <= 'z' then (c as int - 'a' as int + 'A' as int) as char else c
  }

  function Upper(s: string): (u: string)
    ensures |u| == |s|
    ensures forall i :: 0 <= i < |s| ==> u[i] == AsciiUpper(s[i])
  {
    seq(|s|, i requires 0 <= i < |s| => AsciiUpper(s[i]))
  }

  /** POST exactly when the configured method upper-cases to "POST", GET for
      anything else (libs/core/download.py:53-60). */
  function SelectMethod(configured: string): (m: HttpMethod)
    ensures m == Post <==> Upper(configured) == "POST"
  {
    if Upper(configured) == "POST" then Post else Get
  }

  /** Spelled out: POST is chosen exactly for the sixteen spellings of "post"
      in any mix of cases; everything else, including the empty setting, gives GET. */
  lemma PostIffAnyCaseOfPost(configured: string)
    ensures SelectMethod(configured) == Post <==>
              && |configured| == 4
              && configured[0] in "pP" && configured[1] in "oO"
              && configured[2] in "sS" && configured[3] in "tT"
  {
    var u := Upper(configured);
    if |configured| == 4 {
      assert u == "POST" <==> u[0] == 'P' && u[1] == 'O' && u[2] == 'S' && u[3] == 'T';
    }
  }

  // ------------------------------------------------------------- the branch

  datatype Kind = BinaryKind | TextKind

  /** Only the mobile package types are streamed as bytes
      (libs/core/download.py:64, 91-94). */
  function KindOf(types: string): (k: Kind)
    ensures k == BinaryKind <==> types == "Android" || types == "iOS"
  {
    if types in {"Android", "iOS"} then BinaryKind else TextKind
  }

  // --------------------------------------------------------- content length

  predicate IsDigit(c: char) {
    '0' <= c <= '9'
  }

  function DigitOf(c: char): nat
    requires IsDigit(c)
  {
    c as int - '0' as int
  }

  /** Decimal text to a number: defined exactly for non-empty digit strings. */
  function ParseNat(s: string): (n: Option<nat>)
    ensures n.Some? <==> |s| > 0 && forall i :: 0 <= i < |s| ==> IsDigit(s[i])
    decreases |s|
  {
    if |s| == 0 || !IsDigit(s[|s| - 1]) then None
    else if |s| == 1 then Some(DigitOf(s[0]))
    else match ParseNat(s[..|s| - 1])
      case None => None
      case Some(v) => Some(v * 10 + DigitOf(s[|s| - 1]))
  }

  /** The decimal text of a number, without leading zeros. */
  function ShowNat(n: nat): (s: string)
    ensures |s| > 0
    decreases n
  {
    if n < 10 then [('0' as int + n) as char]
    else ShowNat(n / 10) + [('0' as int + n % 10) as char]
  }

  /** Reading back the decimal text of a number gives the number. */
  lemma {:induction false} ParseShow(n: nat)
    ensures ParseNat(ShowNat(n)) == Some(n)
    decreases n
  {
    if n >= 10 {
      var s := ShowNat(n);
      ParseShow(n / 10);
      assert s[..|s| - 1] == ShowNat(n / 10);
    }
  }

  /** Leading zeros do not change the number read, as with `float()`. */
  lemma {:induction false} ParseLeadingZero(s: string)
    requires ParseNat(s).Some?
    ensures ParseNat("0" + s) == ParseNat(s)
    decreases |s|
  {
    if |s| > 1 {
      ParseLeadingZero(s[..|s| - 1]);
      assert ("0" + s)[..|s|] == "0" + s[..|s| - 1];
    }
  }

  /** The length taken from the `content-length` header
      (libs/core/download.py:65-70): none when the header is missing, empty
      or not a number. */
  function ContentLength(header: Option<string>): (len: Option<nat>)
    ensures header.None? ==> len.None?
    ensures header == Some("") ==> len.None?
    ensures len.Some? ==> header.Some? && ParseNat(header.value) == len
    ensures header.Some? && ParseNat(header.value).Some? ==> len.Some?
  {
    match header
    case Some(text) => if |text| > 0 then ParseNat(text) else None
    case None => None
  }

  /** Progress is tracked only for a known, non-zero length (the test `if length`). */
  predicate Tracking(length: Option<nat>) {
    length.Some? && length.value > 0
  }

  // ------------------------------------------------------- chunks and progress

  /** The bytes of a sequence of chunks, in order. */
  function Concat(cs: seq<seq<Byte>>): seq<Byte>
    decreases |cs|
  {
    if |cs| == 0 then [] else Concat(cs[..|cs| - 1]) + cs[|cs| - 1]
  }

  /** The chunks that are written: the non-empty ones, in order. They carry
      all the bytes. */
  function NonEmpty(cs: seq<seq<Byte>>): (ws: seq<seq<Byte>>)
    ensures forall i :: 0 <= i < |ws| ==> |ws[i]| > 0
    ensures Concat(ws) == Concat(cs)
    decreases |cs|
  {
    if |cs| == 0 then []
    else if |cs[|cs| - 1]| == 0 then NonEmpty(cs[..|cs| - 1])
    else
      var ws := NonEmpty(cs[..|cs| - 1]) + [cs[|cs| - 1]];
      assert ws[..|ws| - 1] == NonEmpty(cs[..|cs| - 1]);
      ws
  }

  /** The integer percent after the first `k` chunks of a body of `length`
      bytes, rounded down. */
  function PercentAfter(cs: seq<seq<Byte>>, k: nat, length: nat): nat
    requires k <= |cs| && length > 0
  {
    |Concat(cs[..k])| * 100 / length
  }

  const BarChar: char := '\U{258B}'

  /** One progress line: the percent and a bar of percent / 2 marks
      (libs/core/download.py:81-87). */
  datatype Update = Update(percent: nat, bar: string)

  function Bar(percent: nat): (b: string)
    ensures |b| == percent / 2
    ensures forall i :: 0 <= i < |b| ==> b[i] == BarChar
  {
    seq(percent / 2, _ => BarChar)
  }

  predicate Emitted(updates: seq<Update>, p: nat) {
    exists i :: 0 <= i < |updates| && updates[i].percent == p
  }

  lemma MulMonotone(n: nat, a: nat, b: nat)
    requires a <= b
    ensures n * a <= n * b
  {
    assert n * b - n * a == n * (b - a);
  }

  lemma DivMonotone(x: nat, y: nat, n: nat)
    requires x <= y && n > 0
    ensures x / n <= y / n
  {
    var qx, qy := x / n, y / n;
    if qx > qy {
      MulMonotone(n, qy + 1, qx);
    }
  }

  /** Reading one more chunk never lowers the percent. */
  lemma PercentStep(cs: seq<seq<Byte>>, i: nat, length: nat)
    requires i < |cs| && length > 0
    ensures Concat(cs[..i + 1]) == Concat(cs[..i]) + cs[i]
    ensures PercentAfter(cs, i, length) <= PercentAfter(cs, i + 1, length)
    ensures |cs[i]| == 0 ==> PercentAfter(cs, i, length) == PercentAfter(cs, i + 1, length)
  {
    assert cs[..i + 1][..i] == cs[..i];
    var a := |Concat(cs[..i])|;
    var b := |Concat(cs[..i + 1])|;
    assert a * 100 <= b * 100;
    DivMonotone(a * 100, b * 100, length);
  }

  /** The printed percents are exactly the non-zero percents reached after
      one of the first `i` chunks. */
  ghost predicate EmittedExactly(updates: seq<Update>, cs: seq<seq<Byte>>, i: nat, length: nat)
    requires i <= |cs| && length > 0
  {
    forall p: nat :: Emitted(updates, p) <==>
      p > 0 && exists k :: 1 <= k <= i && PercentAfter(cs, k, length) == p
  }

  /** One more chunk keeps `EmittedExactly`: the percent it reaches is
      printed when it differs from the last one, and was already printed (or
      is 0) when it does not. */
  lemma EmittedStep(updates: seq<Update>, cs: seq<seq<Byte>>, i: nat, length: nat)
    requires i < |cs| && length > 0
    requires EmittedExactly(updates, cs, i, length)
    ensures PercentAfter(cs, i + 1, length) == PercentAfter(cs, i, length) ==>
              EmittedExactly(updates, cs, i + 1, length)
    ensures PercentAfter(cs, i + 1, length) > PercentAfter(cs, i, length) ==>
              var p' := PercentAfter(cs, i + 1, length);
              EmittedExactly(updates + [Update(p', Bar(p'))], cs, i + 1, length)
  {
    var last := PercentAfter(cs, i, length);
    var next := PercentAfter(cs, i + 1, length);
    if i == 0 {
      assert cs[..0] == [];
    }
    if next == last {
      forall p: nat
        ensures Emitted(updates, p) <==>
                  p > 0 && exists k :: 1 <= k <= i + 1 && PercentAfter(cs, k, length) == p
      {
        if p > 0 && PercentAfter(cs, i + 1, length) == p {
          assert PercentAfter(cs, i, length) == p;
        }
      }
    } else if next > last {
      var us := updates + [Update(next, Bar(next))];
      forall p: nat
        ensures Emitted(us, p) <==>
                  p > 0 && exists k :: 1 <= k <= i + 1 && PercentAfter(cs, k, length) == p
      {
        if Emitted(us, p) {
          var j :| 0 <= j < |us| && us[j].percent == p;
          if j < |updates| {
            assert updates[j].percent == p;
          }
        }
        if Emitted(updates, p) {
          var j :| 0 <= j < |updates| && updates[j].percent == p;
          assert us[j].percent == p;
        }
        assert us[|updates|].percent == next;
      }
    }
  }

  /** Printed updates so far: every percent positive, at most `last`, with
      its bar, and strictly increasing. */
  ghost predicate RisingUpTo(updates: seq<Update>, last: nat) {
    && (forall j :: 0 <= j < |updates| ==>
          0 < updates[j].percent <= last && updates[j].bar == Bar(updates[j].percent))
    && (forall j, k :: 0 <= j < k < |updates| ==> updates[j].percent < updates[k].percent)
  }

  lemma RisingAppend(updates: seq<Update>, last: nat, p: nat)
    requires RisingUpTo(updates, last) && last < p
    ensures RisingUpTo(updates + [Update(p, Bar(p))], p)
  {
  }

  /** The chunks written after one more chunk. */
  lemma NonEmptyStep(cs: seq<seq<Byte>>, i: nat)
    requires i < |cs|
    ensures NonEmpty(cs[..i + 1]) == NonEmpty(cs[..i]) + (if |cs[i]| > 0 then [cs[i]] else [])
  {
    assert cs[..i + 1][..i] == cs[..i];
  }

  /** The write/progress loop of the binary branch (libs/core/download.py:71-88).
      Empty chunks are skipped. With a tracked length, the byte count is the
      body's length and an update is printed whenever the percent differs
      from the last one printed, which starts at 0: so the printed percents
      are strictly increasing, never 0, and are exactly the non-zero percents
      reached after some chunk. Without one, nothing is counted or printed. */
  method Stream(chunks: seq<seq<Byte>>, length: Option<nat>)
    returns (writes: seq<seq<Byte>>, count: nat, updates: seq<Update>)
    ensures writes == NonEmpty(chunks)
    ensures Concat(writes) == Concat(chunks)
    ensures !Tracking(length) ==> count == 0 && updates == []
    ensures Tracking(length) ==> count == |Concat(chunks)|
    ensures forall i :: 0 <= i < |updates| ==>
              updates[i].percent > 0 && updates[i].bar == Bar(updates[i].percent)
    ensures forall i, j :: 0 <= i < j < |updates| ==> updates[i].percent < updates[j].percent
    ensures Tracking(length) ==> forall p: nat :: Emitted(updates, p) <==>
              p > 0 && exists k :: 1 <= k <= |chunks| && PercentAfter(chunks, k, length.value) == p
  {
    var tracking := Tracking(length);
    var n := if tracking then length.value else 1;
    writes, count, updates := [], 0, [];
    var last: nat := 0;
    var i := 0;
    while i < |chunks|
      invariant 0 <= i <= |chunks|
      invariant writes == NonEmpty(chunks[..i])
      invariant !tracking ==> count == 0 && updates == [] && last == 0
      invariant tracking ==> count == |Concat(chunks[..i])| && last == PercentAfter(chunks, i, n)
      invariant RisingUpTo(updates, last)
      invariant tracking ==> EmittedExactly(updates, chunks, i, n)
    {
      var chunk := chunks[i];
      NonEmptyStep(chunks, i);
      PercentStep(chunks, i, n);
      if tracking {
        EmittedStep(updates, chunks, i, n);
      }
      if |chunk| > 0 {
        writes := writes + [chunk];
        if tracking {
          count := count + |chunk|;
          var progress := count * 100 / n;
          if progress != last {
            RisingAppend(updates, last, progress);
            last := progress;
            updates := updates + [Update(progress, Bar(progress))];
          }
        }
      }
      i := i + 1;
    }
    assert chunks[..i] == chunks;
    if tracking {
      assert EmittedExactly(updates, chunks, |chunks|, n);
    }
  }

  // ------------------------------------------------------------ the request

  /** The final answer of the transport, after its own retries. `interrupted`
      says that an exception cut the chunk loop short after `chunks`. */
  datatype Reply =
    | TransportError
    | Response(status: int, contentLength: Option<string>,
               chunks: seq<seq<Byte>>, interrupted: bool, text: string)

  datatype Fault = Transport | HttpStatus(code: int) | Interrupted

  /** The destination file after the run. */
  datatype Saved = NotOpened | BinaryFile(bytes: seq<Byte>) | TextFile(text: string)

  /** Everything one run leaves behind. */
  datatype Fetch = Fetch(verb: HttpMethod, saved: Saved, updates: seq<Update>,
                         completed: bool, failure: Option<Fault>)

  /** The statuses `raise_for_status` turns into an error. */
  predicate IsHttpError(status: int) {
    400 <= status < 600
  }

  /** `__request` (libs/core/download.py:44-100). The completion flag is set
      as the last step of the success path only: a transport error, an
      error status or an interrupted body leaves it unset. */
  method Request(configuredMethod: string, types: string, reply: Reply) returns (r: Fetch)
    ensures r.verb == SelectMethod(configuredMethod)
    ensures r.completed <==> r.failure.None?
    ensures reply.TransportError? ==> r.failure == Some(Transport) && r.saved == NotOpened
    ensures reply.Response? && IsHttpError(reply.status) ==>
              r.failure == Some(HttpStatus(reply.status)) && r.saved == NotOpened
    ensures reply.Response? && !IsHttpError(reply.status) && KindOf(types) == TextKind ==>
              r.completed && r.saved == TextFile(reply.text)
    ensures reply.Response? && !IsHttpError(reply.status) && KindOf(types) == BinaryKind ==>
              && r.saved == BinaryFile(Concat(NonEmpty(reply.chunks)))
              && (r.completed <==> !reply.interrupted)
              && (reply.interrupted ==> r.failure == Some(Interrupted))
    ensures |r.updates| > 0 ==>
              && reply.Response? && !IsHttpError(reply.status) && KindOf(types) == BinaryKind
              && Tracking(ContentLength(reply.contentLength))
    ensures reply.Response? && !IsHttpError(reply.status) && KindOf(types) == BinaryKind &&
            Tracking(ContentLength(reply.contentLength)) ==>
              forall p: nat :: Emitted(r.updates, p) <==>
                p > 0 && (exists k :: 1 <= k <= |reply.chunks| &&
                            PercentAfter(reply.chunks, k, ContentLength(reply.contentLength).value) == p)
    ensures forall i :: 0 <= i < |r.updates| ==> r.updates[i].bar == Bar(r.updates[i].percent)
    ensures forall i, j :: 0 <= i < j < |r.updates| ==> 0 < r.updates[i].percent < r.updates[j].percent
  {
    var verb := SelectMethod(configuredMethod);
    match reply
    case TransportError =>
      r := Fetch(verb, NotOpened, [], false, Some(Transport));
    case Response(status, header, chunks, interrupted, text) =>
      if IsHttpError(status) {
        r := Fetch(verb, NotOpened, [], false, Some(HttpStatus(status)));
      } else if KindOf(types) == BinaryKind {
        var length := ContentLength(header);
        var writes, count, updates := Stream(chunks, length);
        if interrupted {
          r := Fetch(verb, BinaryFile(Concat(writes)), updates, false, Some(Interrupted));
        } else {
          r := Fetch(verb, BinaryFile(Concat(writes)), updates, true, None);
        }
      } else {
        r := Fetch(verb, TextFile(text), [], true, None);
      }
  }
}

=== FILE: probe.dfy ===
/** The probe classifier of libs/core/net.py: one streamed GET against a
    candidate address, turned into a tagged outcome. The network itself is
    not modelled; what it answered is given as a `Reply`. */
module Probe {
  import opened Wrappers

  /** Response headers, looked up by exact name. */
  type Headers = map<string, string>

  /** The two ends of the TCP connection behind a response. */
  datatype Socket = Socket(peer: string, local: string)

  /** What the transport produced for one request. */
  datatype Response = Response(status: int, headers: Headers, sock: Option<Socket>, body: string)

  datatype Reply =
    | InvalidUrl            // the address was rejected before any attempt
    | ConnectionFailed      // connection-level failure
    | ReadTimedOut          // the read did not finish within the timeout
    | Responded(rsp: Response)

  /** The tagged outcome the worker loop consumes. `cookie` and `souIp` are
      collected but never reach the report. */
  datatype Outcome =
    | Error
    | Timeout
    | Answered(status: int, server: string, cookie: string, cdn: string,
              desIp: string, souIp: string, title: string)

  /** The value of header `name`, or "" when the response does not carry it. */
  function HeaderOrEmpty(h: Headers, name: string): (v: string)
    ensures name in h ==> v == h[name]
    ensures name !in h ==> v == ""
  {
    if name in h then h[name] else ""
  }

  /** Appends the value of header `name` to `acc` when the header is present. */
  function AppendHeader(acc: string, h: Headers, name: string): (r: string)
    ensures name in h ==> r == acc + h[name]
    ensures name !in h ==> r == acc
  {
    if name in h then acc + h[name] else acc
  }

  /** The CDN hint: the `X-Via` value followed by the `Via` value, each only
      when present (libs/core/net.py:66, 75-79). */
  function Cdn(h: Headers): (r: string)
    ensures "X-Via" in h ==> h["X-Via"] <= r
    ensures |r| == |HeaderOrEmpty(h, "X-Via")| + |HeaderOrEmpty(h, "Via")|
    ensures "Via" in h ==> r[|r| - |h["Via"]|..] == h["Via"]
    ensures "X-Via" !in h && "Via" !in h ==> r == ""
    ensures "X-Via" !in h && "Via" in h ==> r == h["Via"]
    ensures "X-Via" in h && "Via" !in h ==> r == h["X-Via"]
  {
    AppendHeader(AppendHeader("", h, "X-Via"), h, "Via")
  }

  /** The first match of the title pattern, or "" when there is none. */
  function FirstOrEmpty(matches: seq<string>): (t: string)
    ensures |matches| == 0 ==> t == ""
    ensures |matches| > 0 ==> t == matches[0]
  {
    if |matches| > 0 then matches[0] else ""
  }

  /** Header-to-result mapping with error/timeout tagging
      (libs/core/net.py:56-97). `findTitles` stands for the regular-expression
      search for `<title>(.+)</title>` over the decoded body. */
  function Classify(reply: Reply, findTitles: string -> seq<string>): (o: Outcome)
    ensures o.Error? <==> reply.InvalidUrl?
    ensures o.Timeout? <==> (reply.ConnectionFailed? || reply.ReadTimedOut?)
    ensures o.Answered? <==> reply.Responded?
    ensures reply.Responded? ==>
              var rsp := reply.rsp;
              && o.status == rsp.status
              && ("Server" in rsp.headers ==> o.server == rsp.headers["Server"])
              && ("Server" !in rsp.headers ==> o.server == "")
              && ("Cookie" in rsp.headers ==> o.cookie == rsp.headers["Cookie"])
              && ("Cookie" !in rsp.headers ==> o.cookie == "")
              && o.cdn == Cdn(rsp.headers)
              && (rsp.sock.None? ==> o.desIp == "" && o.souIp == "")
              && (rsp.sock.Some? ==> o.desIp == rsp.sock.value.peer && o.souIp == rsp.sock.value.local)
              && (|findTitles(rsp.body)| == 0 ==> o.title == "")
              && (|findTitles(rsp.body)| > 0 ==> o.title == findTitles(rsp.body)[0])
  {
    match reply
    case InvalidUrl => Error
    case ConnectionFailed => Timeout
    case ReadTimedOut => Timeout
    case Responded(rsp) =>
      var ips := match rsp.sock
                 case Some(s) => (s.peer, s.local)
                 case None => ("", "");
      Answered(rsp.status,
              HeaderOrEmpty(rsp.headers, "Server"),
              HeaderOrEmpty(rsp.headers, "Cookie"),
              Cdn(rsp.headers),
              ips.0, ips.1,
              FirstOrEmpty(findTitles(rsp.body)))
  }
}

=== FILE: worker.dfy ===
/** One probe worker's loop of libs/core/net.py (`__get_http_info`), taken
    sequentially: tasks leave a FIFO queue one at a time, each is classified,
    and every outcome other than `Error` becomes one report row. The report is
    a map from (row, column) to cell value; the row counter is the
    process-wide counter the source keeps beside it. */
module Worker {
  import opened Wrappers
  import opened Probe

  /** One queued probe task. */
  datatype Task = Task(domain: string, urlIp: string)

  /** A worksheet cell: the index and status columns hold numbers, the others text. */
  datatype Cell = Num(n: int) | Text(s: string)

  type Cells = map<(int, int), Cell>

  /** The shared report: the last row written and the cells written so far. */
  datatype Sheet = Sheet(row: int, cells: Cells)

  /** A task paired with the outcome its probe produced. */
  type Job = (Task, Outcome)

  function Lookup(cells: Cells, r: int, c: int): Option<Cell> {
    if (r, c) in cells then Some(cells[(r, c)]) else None
  }

  /** The columns a row for outcome `o` occupies: none for `Error`, the
      index/address/domain columns for `Timeout`, all eight for `Answered`. */
  function Columns(o: Outcome): set<int> {
    match o
    case Error => {}
    case Timeout => {1, 2, 3}
    case Answered(_, _, _, _, _, _, _) => {1, 2, 3, 4, 5, 6, 7, 8}
  }

  /** Row `r` of `cells` holds the report row of task `t` with outcome `o`:
      1 = index (r - 1), 2 = address, 3 = domain, and for a success
      4 = status, 5 = destination address, 6 = server, 7 = title, 8 = CDN hint. */
  ghost predicate RowHolds(cells: Cells, r: int, t: Task, o: Outcome) {
    && Lookup(cells, r, 1) == Some(Num(r - 1))
    && Lookup(cells, r, 2) == Some(Text(t.urlIp))
    && Lookup(cells, r, 3) == Some(Text(t.domain))
    && (o.Answered? ==>
          && Lookup(cells, r, 4) == Some(Num(o.status))
          && Lookup(cells, r, 5) == Some(Text(o.desIp))
          && Lookup(cells, r, 6) == Some(Text(o.server))
          && Lookup(cells, r, 7) == Some(Text(o.title))
          && Lookup(cells, r, 8) == Some(Text(o.cdn)))
  }

  /** The locked block of the loop (libs/core/net.py:40-54): an `Error`
      leaves the sheet alone; any other outcome advances the counter by one
      and fills the new row. No other cell changes. */
  function WriteRow(s: Sheet, t: Task, o: Outcome): (s': Sheet)
    ensures o.Error? ==> s' == s
    ensures !o.Error? ==> s'.row == s.row + 1 && RowHolds(s'.cells, s'.row, t, o)
    ensures forall r, c :: !(r == s'.row && c in Columns(o)) ==>
              Lookup(s'.cells, r, c) == Lookup(s.cells, r, c)
  {
    match o
    case Error => s
    case Timeout =>
      var r := s.row + 1;
      Sheet(r, s.cells[(r, 1) := Num(r - 1)][(r, 2) := Text(t.urlIp)][(r, 3) := Text(t.domain)])
    case Answered(status, server, _, cdn, desIp, _, title) =>
      var r := s.row + 1;
      var c := s.cells[(r, 1) := Num(r - 1)][(r, 2) := Text(t.urlIp)][(r, 3) := Text(t.domain)];
      Sheet(r, c[(r, 4) := Num(status)][(r, 5) := Text(desIp)][(r, 6) := Text(server)]
                [(r, 7) := Text(title)][(r, 8) := Text(cdn)])
  }

  /** One task from reply to report row (libs/core/net.py:38-52): an invalid
      address leaves the sheet as it was; any other reply adds the next row
      with its index, the probed address and the domain; no cell outside
      that row's columns changes; a failed connection or read leaves columns
      4-8 of that row as they were; a response fills them with its status,
      peer address (or ""), `Server` header (or ""), first title (or "") and
      CDN hint. */
  lemma ProbeRow(s: Sheet, t: Task, reply: Reply, findTitles: string -> seq<string>)
    ensures var s' := WriteRow(s, t, Classify(reply, findTitles));
            && (reply.InvalidUrl? ==> s' == s)
            && (!reply.InvalidUrl? ==>
                  s'.row == s.row + 1 && RowHolds(s'.cells, s'.row, t, Classify(reply, findTitles)))
            && (forall r, c :: !(r == s'.row && c in Columns(Classify(reply, findTitles))) ==>
                  Lookup(s'.cells, r, c) == Lookup(s.cells, r, c))
            && (reply.ConnectionFailed? || reply.ReadTimedOut? ==>
                  forall c :: 4 <= c <= 8 ==> Lookup(s'.cells, s'.row, c) == Lookup(s.cells, s'.row, c))
            && (reply.Responded? ==>
                  var rsp := reply.rsp;
                  && Lookup(s'.cells, s'.row, 4) == Some(Num(rsp.status))
                  && Lookup(s'.cells, s'.row, 5) ==
                       Some(Text(if rsp.sock.Some? then rsp.sock.value.peer else ""))
                  && Lookup(s'.cells, s'.row, 6) == Some(Text(HeaderOrEmpty(rsp.headers, "Server")))
                  && Lookup(s'.cells, s'.row, 7) == Some(Text(FirstOrEmpty(findTitles(rsp.body))))
                  && Lookup(s'.cells, s'.row, 8) == Some(Text(Cdn(rsp.headers))))
  {
  }

  /** The whole loop: jobs are taken from the front of the queue until it is empty. */
  function Run(s: Sheet, jobs: seq<Job>): Sheet
    decreases |jobs|
  {
    if |jobs| == 0 then s else Run(WriteRow(s, jobs[0].0, jobs[0].1), jobs[1..])
  }

  /** The jobs whose outcome produces a row, in queue order. */
  function Accepted(jobs: seq<Job>): (acc: seq<Job>)
    ensures |acc| <= |jobs|
    ensures forall j :: 0 <= j < |acc| ==> !acc[j].1.Error?
    ensures forall j :: 0 <= j < |acc| ==> acc[j] in jobs
  {
    if |jobs| == 0 then []
    else if jobs[0].1.Error? then Accepted(jobs[1..])
    else [jobs[0]] + Accepted(jobs[1..])
  }

  /** Pairs every queued task with the outcome of classifying its reply. */
  function Classified(queue: seq<(Task, Reply)>, findTitles: string -> seq<string>): (jobs: seq<Job>)
    ensures |jobs| == |queue|
    ensures forall i :: 0 <= i < |queue| ==>
              jobs[i].0 == queue[i].0 && jobs[i].1 == Classify(queue[i].1, findTitles)
  {
    seq(|queue|, i requires 0 <= i < |queue| => (queue[i].0, Classify(queue[i].1, findTitles)))
  }

  /** Draining a queue in two parts is draining the first part, then the second. */
  lemma {:induction false} RunAppend(s: Sheet, a: seq<Job>, b: seq<Job>)
    ensures Run(s, a + b) == Run(Run(s, a), b)
    decreases |a|
  {
    if |a| > 0 {
      assert (a + b)[1..] == a[1..] + b;
      RunAppend(WriteRow(s, a[0].0, a[0].1), a[1..], b);
    } else {
      assert a + b == b;
    }
  }

  /** Dropped tasks have no effect: the run equals the run over the accepted
      jobs alone, so an invalid address never disturbs the rest of the queue. */
  lemma {:induction false} RunSkipsErrors(s: Sheet, jobs: seq<Job>)
    ensures Run(s, jobs) == Run(s, Accepted(jobs))
    decreases |jobs|
  {
    if |jobs| > 0 {
      RunSkipsErrors(WriteRow(s, jobs[0].0, jobs[0].1), jobs[1..]);
      if !jobs[0].1.Error? {
        var rest := Accepted(jobs[1..]);
        assert ([jobs[0]] + rest)[0] == jobs[0];
        assert ([jobs[0]] + rest)[1..] == rest;
      }
    }
  }

  /** A row that is read back unchanged cell by cell still holds. */
  lemma RowHoldsTransfer(a: Cells, b: Cells, r: int, t: Task, o: Outcome)
    requires RowHolds(a, r, t, o)
    requires forall c :: 1 <= c <= 8 ==> Lookup(b, r, c) == Lookup(a, r, c)
    ensures RowHolds(b, r, t, o)
  {
    assert Lookup(b, r, 1) == Lookup(a, r, 1);
    assert Lookup(b, r, 2) == Lookup(a, r, 2);
    assert Lookup(b, r, 3) == Lookup(a, r, 3);
    if o.Answered? {
      assert Lookup(b, r, 4) == Lookup(a, r, 4);
      assert Lookup(b, r, 5) == Lookup(a, r, 5);
      assert Lookup(b, r, 6) == Lookup(a, r, 6);
      assert Lookup(b, r, 7) == Lookup(a, r, 7);
      assert Lookup(b, r, 8) == Lookup(a, r, 8);
    }
  }

  /** Cell (r, c) belongs to one of the rows a run of accepted jobs `acc`
      adds after row `base`. */
  predicate Touched(base: int, acc: seq<Job>, r: int, c: int) {
    base < r <= base + |acc| && c in Columns(acc[r - base - 1].1)
  }

  /** The cells of a run are those of its first row and those of the rest. */
  lemma TouchedSplit(base: int, acc: seq<Job>, r: int, c: int)
    requires |acc| > 0
    ensures Touched(base, acc, r, c) <==>
              (r == base + 1 && c in Columns(acc[0].1)) || Touched(base + 1, acc[1..], r, c)
  {
    if base + 1 < r <= base + |acc| {
      assert acc[1..][r - base - 2] == acc[r - base - 1];
    }
  }

  /** A run over jobs none of which is an `Error` touches only the cells of
      the rows it adds, and of those only the columns their outcomes fill. */
  lemma {:induction false} RunFrame(s: Sheet, acc: seq<Job>)
    requires forall j :: 0 <= j < |acc| ==> !acc[j].1.Error?
    ensures Run(s, acc).row == s.row + |acc|
    ensures forall r, c :: !Touched(s.row, acc, r, c) ==>
              Lookup(Run(s, acc).cells, r, c) == Lookup(s.cells, r, c)
    decreases |acc|
  {
    if |acc| > 0 {
      var s1 := WriteRow(s, acc[0].0, acc[0].1);
      var tail := acc[1..];
      RunFrame(s1, tail);
      forall r, c | !Touched(s.row, acc, r, c)
        ensures Lookup(Run(s1, tail).cells, r, c) == Lookup(s.cells, r, c)
      {
        TouchedSplit(s.row, acc, r, c);
      }
    }
  }

  /** A row written before a run of accepted jobs survives the run, since
      the run only writes below it. */
  lemma FirstRowKept(s1: Sheet, tail: seq<Job>, t: Task, o: Outcome)
    requires forall j :: 0 <= j < |tail| ==> !tail[j].1.Error?
    requires RowHolds(s1.cells, s1.row, t, o)
    ensures RowHolds(Run(s1, tail).cells, s1.row, t, o)
  {
    RunFrame(s1, tail);
    RowHoldsTransfer(s1.cells, Run(s1, tail).cells, s1.row, t, o);
  }

  /** A run over jobs none of which is an `Error` writes the i-th job's row at
      initial row + 1 + i. */
  lemma {:induction false} RunRows(s: Sheet, acc: seq<Job>)
    requires forall j :: 0 <= j < |acc| ==> !acc[j].1.Error?
    ensures forall i :: 0 <= i < |acc| ==> RowHolds(Run(s, acc).cells, s.row + 1 + i, acc[i].0, acc[i].1)
    decreases |acc|
  {
    if |acc| > 0 {
      var s1 := WriteRow(s, acc[0].0, acc[0].1);
      var tail := acc[1..];
      var fin := Run(s1, tail);
      RunRows(s1, tail);
      FirstRowKept(s1, tail, acc[0].0, acc[0].1);
      forall i | 1 <= i < |acc|
        ensures RowHolds(fin.cells, s.row + 1 + i, acc[i].0, acc[i].1)
      {
        assert tail[i - 1] == acc[i];
      }
    }
  }

  /** Over a whole run (libs/core/net.py:31-54): with n the number of
      non-`Error` outcomes, exactly the rows initial+1 .. initial+n are
      written, the k-th of them holding the k-th accepted task with index
      initial+k-1, and every other cell, including the unused columns of a
      timeout row, keeps its value. */
  lemma RunLayout(s: Sheet, jobs: seq<Job>)
    ensures var acc := Accepted(jobs);
            && Run(s, jobs).row == s.row + |acc|
            && (forall i :: 0 <= i < |acc| ==>
                  RowHolds(Run(s, jobs).cells, s.row + 1 + i, acc[i].0, acc[i].1))
            && (forall r, c :: !Touched(s.row, acc, r, c) ==>
                  Lookup(Run(s, jobs).cells, r, c) == Lookup(s.cells, r, c))
  {
    RunSkipsErrors(s, jobs);
    RunFrame(s, Accepted(jobs));
    RunRows(s, Accepted(jobs));
  }

  /** The worker loop itself: take the next task while the queue is not
      empty, classify its reply, and write the row. `visited` lists the
      addresses in the order they were processed. */
  method Drain(sheet: Sheet, queue: seq<(Task, Reply)>, findTitles: string -> seq<string>)
    returns (s: Sheet, visited: seq<string>)
    ensures s == Run(sheet, Classified(queue, findTitles))
    ensures |visited| == |queue|
    ensures forall i :: 0 <= i < |queue| ==> visited[i] == queue[i].0.urlIp
  {
    var jobs := Classified(queue, findTitles);
    s := sheet;
    visited := [];
    var i := 0;
    while i < |queue|
      invariant 0 <= i <= |queue|
      invariant s == Run(sheet, jobs[..i])
      invariant |visited| == i
      invariant forall k :: 0 <= k < i ==> visited[k] == queue[k].0.urlIp
    {
      var (task, reply) := queue[i];
      var outcome := Classify(reply, findTitles);
      RunAppend(sheet, jobs[..i], [(task, outcome)]);
      assert jobs[..i + 1] == jobs[..i] + [(task, outcome)];
      s := WriteRow(s, task, outcome);
      visited := visited + [task.urlIp];
      i := i + 1;
    }
    assert jobs[..i] == jobs;
  }
}

=== FILE: wrappers.dfy ===
/** Failure-compatible wrappers shared by the rest of the model: an optional
    value, and a result that is either a value or an error. */
module Wrappers {

  datatype Option<+T> = None | Some(value: T)

  datatype Result<+R, +E> = Success(value: R) | Failure(error: E) {

    predicate IsFailure() {
      Failure?
    }

    function PropagateFailure<U>(): Result<U, E>
      requires Failure?
    {
      Failure(error)
    }

    function Extract(): R
      requires Success?
    {
      value
    }
  }
}
